=== FILE: README.md ===
# RequestBuilder model

A Dafny model of `RequestBuilder`, the part of the PokemonGo RocketAPI client that
builds outgoing request envelopes. One builder belongs to one connection and holds:

- a 64-bit request-id counter, seeded at construction and post-incremented by every envelope built;
- the process start time;
- the persisted 16-byte session hash, kept in the settings store.

It builds two kinds of envelope:

- the **handshake** (initial) envelope carries the raw login credentials;
- the **normal** envelope carries the auth ticket and one `SendEncryptedSignature`
  platform request. That request wraps an encrypted `Signature`, which holds spoofed
  telemetry, location hashes, one hash per sub-request and the session hash.

The model is written in state-passing style. `RequestBuilder.Builder` is an immutable
value. Every operation that changes it returns a `Transition(next, output)`. The
module `Session` strings calls together (`Run`), so that properties spanning many
builds can be stated: consecutive ids, stable and rotated session hashes, and
non-decreasing time since start.

Files:

- `wrappers.dfy`: `Option` and `Result`, used for nulls and thrown exceptions.
- `machine_ints.dfy`: C# `int`, `long` and `ulong`, with their unchecked wrap-around
  written out.
- `protocol.dfy`: the envelope, request, credential and signature messages. It also
  defines the two envelope shapes, `IsHandshake` and `IsSigned`.
- `external.dfy`: the settings store, and the collaborators whose code is not part of
  this model.
- `jitter.dfy`: the `GenRandom` primitives, over exact reals.
- `request_builder.dfy`: the builder, its constructor, `GenerateNewHash`,
  `GenerateSignature` and the three envelope builders.
- `session.dfy`: runs of calls, and the properties that hold across them.

Things the model takes as parameters:

- Clock readings. Each of the four `Utils.GetTime(true)` reads of a signature
  (lines 68, 69, 75 and 119) is a separate field of `EnvelopeDraws`.
- Random draws. Each is a field of `EnvelopeDraws` and must lie in its
  `RandomDevice.Next` range (`DrawsInRange`).
- The request-id seed and the 16 random bytes of a new session hash. These are
  arguments of `New` and `GenerateNewHash`.
- Uninterpreted collaborators, bundled in `External.Collaborators`: protobuf
  serialisation, `Crypt.Encrypt`, `Utils.GenerateLocation1/2`,
  `Utils.GenerateRequestHash` and the `(float)` cast.

Modelling choices, following the code:

- `_startTime` is a C# `int` (line 22). It is assigned `Utils.GetTime(true)` without
  a cast, so clock readings are 32-bit ints.
- `now - _startTime - jitter` is computed in unchecked 32-bit arithmetic and then cast
  to `ulong`. `RequestBuilder.Elapsed` models both steps. A build less than 400 ms
  after the start can therefore stamp a timestamp near 2^64 (`EarlySnapshotWraps`).
- `_nextRequestId++` wraps modulo 2^64 (`MachineInts.IncrementUInt64`).
- A null ticket is not excluded by a precondition. `GetRequestEnvelope` consumes the
  request id at line 146, and only then does line 65 dereference the null ticket. So
  the model returns `Failure(NullAuthTicket)` with the counter already advanced. A
  failed build still consumes its id; the id is not rolled back.
- A null session hash assigned at line 127 throws in the protobuf setter. The model
  returns `Failure(NullSessionHash)` for it. A builder made by `New` never reaches that
  case (`Session.OnlyMissingTicketFails`).
- The seed is `Convert.ToUInt64(NextDouble() * 10^18)`. `NextDouble()` is below 1, so
  the largest product, (1 - 2^-53) * 10^18, rounds in `double` to 10^18 - 128, and
  the seed never reaches 10^18. The model requires `seed < 10^18`, a slight
  over-approximation of the values the conversion can produce.
- The constructor's `if (_startTime == 0)` always holds, because the field is fresh at
  that point. The model always captures the clock reading.

## Model

| member | source | states |
|---|---|---|
| `MachineInts.IncrementUInt64` | PokemonGo.RocketAPI/Helpers/RequestBuilder.cs:146 | the `ulong` post-increment adds one below the maximum and wraps the maximum to 0 |
| `MachineInts.ToUInt64` | PokemonGo.RocketAPI/Helpers/RequestBuilder.cs:68 | the `(ulong)` cast keeps a non-negative `int` and sends a negative one to a value of at least 2^64 - 2^31, congruent to it modulo 2^64 |
| `Jitter.GenRandom` | PokemonGo.RocketAPI/Helpers/RequestBuilder.cs:208-211 | for a draw in [0, 1), the sample lies between the two bounds, and below `max` when `min < max` |
| `Jitter.GenRandomAround` | PokemonGo.RocketAPI/Helpers/RequestBuilder.cs:199-206 | the sample lies between 0.7 and 1.3 times the centre, for negative centres too, and is 0 for centre 0 |
| `RequestBuilder.GenerateNewHash` | PokemonGo.RocketAPI/Helpers/RequestBuilder.cs:32-39 | the store then holds exactly the 16 new bytes as session hash; the device fields and all other builder fields are unchanged |
| `RequestBuilder.New` | PokemonGo.RocketAPI/Helpers/RequestBuilder.cs:41-61 | the counter starts at the seed and the start time at the clock reading; a persisted hash leaves the store untouched; a missing one is replaced by the 16 fresh bytes; either way a hash is present afterwards; the constructor arguments are kept |
| `RequestBuilder.Elapsed` | PokemonGo.RocketAPI/Helpers/RequestBuilder.cs:75 | the time difference d is exact when it lies in [0, 2^31), and is 2^64 + d, the sign-extended value, when it lies in [-2^31, 0); for every d the result is below 2^31 or at least 2^64 - 2^31 and congruent to d modulo 2^32, which fixes it as the 32-bit wrapped difference, sign-extended |
| `MachineInts.WrapInt32` | PokemonGo.RocketAPI/Helpers/RequestBuilder.cs:69 | the unchecked `int` subtraction: the result is a 32-bit value congruent to the exact difference modulo 2^32, and equal to it when it fits |
| `RequestBuilder.SessionHash` | PokemonGo.RocketAPI/Helpers/RequestBuilder.cs:26-28 | reading the property returns the store's hash, present exactly when the store holds one |
| `RequestBuilder.SetSessionHash` | PokemonGo.RocketAPI/Helpers/RequestBuilder.cs:29 | writing the property stores the value, which a later read returns; the device fields and every other builder field are unchanged |
| `RequestBuilder.SessionHashLaws` | PokemonGo.RocketAPI/Helpers/RequestBuilder.cs:26-30 | writing back the value just read leaves the builder unchanged, and a second write overrides the first |
| `RequestBuilder.EncryptedSignatureRequest` | PokemonGo.RocketAPI/Helpers/RequestBuilder.cs:131-135 | the platform request has type `SendEncryptedSignature` and its payload is the encryption of the serialised signature |
| `RequestBuilder.Advance` | PokemonGo.RocketAPI/Helpers/RequestBuilder.cs:146 | one post-increment of the counter: one higher below the maximum, 0 at the maximum, and no other field changes |
| `RequestBuilder.RequestHashes` | PokemonGo.RocketAPI/Helpers/RequestBuilder.cs:124-125 | one hash per sub-request, in order: entry i is the request hash of the ticket bytes and sub-request i's bytes |
| `RequestBuilder.GenerateSignature` | PokemonGo.RocketAPI/Helpers/RequestBuilder.cs:63-138 | fails with `NullAuthTicket` exactly when the ticket is null; otherwise fails with `NullSessionHash` exactly when no hash is stored. On success: location hash 1 is computed from the ticket bytes and lat/lon/alt, location hash 2 from lat/lon/alt; the request hashes mirror the sub-requests; the session hash is copied verbatim; the device info is copied unchanged; one "fused" location fix with status 3 and type 1; 3 accelerometer axes; `Unknown25` is 7363665268261373700; vertical accuracy is in [2, 5); each timestamp comes from its own clock read |
| `RequestBuilder.SnapshotJitterBounds` | PokemonGo.RocketAPI/Helpers/RequestBuilder.cs:68-119 | when every read is less than 2^31 ms after the start, with the sensor read at least 400 ms and the fix read at least 300 ms after it, time since start equals clock minus start; the sensor snapshot is 100 to 399 ms before its reading; the location-fix snapshot is 100 to 299 ms before its reading |
| `RequestBuilder.EarlySnapshotWraps` | PokemonGo.RocketAPI/Helpers/RequestBuilder.cs:75 | a build less than 100 ms after the start gives a sensor snapshot of at least 2^64 - 400 |
| `RequestBuilder.GetRequestEnvelope` | PokemonGo.RocketAPI/Helpers/RequestBuilder.cs:140-158 | the counter is one higher afterwards, and 0 after 2^64 - 1, and nothing else in the builder changes, even when the build fails. A null ticket gives `NullAuthTicket`; a ticket with no stored session hash gives `NullSessionHash`, the throw at line 127. A success has the signed shape (ticket set, no credentials, a single `SendEncryptedSignature` platform request whose payload is the encrypted serialised signature). The envelope carries the old counter value as id, status 2, the sub-requests, lat/lon, altitude as accuracy, and a delay in [800, 1900) |
| `RequestBuilder.GetTypedRequestEnvelope` | PokemonGo.RocketAPI/Helpers/RequestBuilder.cs:187-195 | the counter advances by one wrapped post-increment. A null ticket gives `NullAuthTicket`, and a ticket with no stored session hash gives `NullSessionHash`; otherwise the build succeeds. A success carries the builder's ticket, status 2, the builder's lat/lon, altitude as accuracy, a delay in [800, 1900), the old counter value as id and the signed shape. Its only sub-request carries the given type and message bytes, its signature has exactly that one request hash, and the envelope's only platform request is that signature, serialised and encrypted |
| `RequestBuilder.GetInitialRequestEnvelope` | PokemonGo.RocketAPI/Helpers/RequestBuilder.cs:160-185 | the counter is one higher, and 0 after 2^64 - 1, and the old value is the id. The envelope has the handshake shape (credentials set, no ticket, no platform request). The provider is "google" iff the auth type is Google and "ptc" iff it is Ptc. The token contents equal the auth token and `Unknown2` is 59. Status 2, sub-requests, lat/lon, altitude as accuracy and a delay in [800, 1900) |
| `Session.Step` | PokemonGo.RocketAPI/Helpers/RequestBuilder.cs:140-185 | a normal build that is sent returns exactly the envelope `GetRequestEnvelope` builds, and a handshake exactly the one `GetInitialRequestEnvelope` builds, so the envelope's shape, ticket or credentials, and sub-requests are carried into the run. A build advances the counter once and a rotation does not. Only a rotation changes the stored hash. A sent envelope carries the old counter value. A sent normal envelope always has a signature, the one `GenerateSignature` makes, and its only platform request is that signature encrypted. A handshake is always sent, without a signature, and a rotation returns `HashRotated`. Only a normal build fails, with `NullAuthTicket` iff the ticket is null |
| `Session.RunFrame` | PokemonGo.RocketAPI/Helpers/RequestBuilder.cs:16-24 | over any run of calls, only the counter and the session hash change; token, auth type, position, ticket, start time and device fields stay fixed |
| `Session.RunAdvances` | PokemonGo.RocketAPI/Helpers/RequestBuilder.cs:146-166 | after any run, the counter has been post-incremented once per build, with wrap-around, starting from the seed |
| `Session.RunCounter` | PokemonGo.RocketAPI/Helpers/RequestBuilder.cs:146-166 | after any run, the counter equals the seed plus the number of builds, modulo 2^64; failed builds and handshakes count too |
| `Session.RunIdAt` | PokemonGo.RocketAPI/Helpers/RequestBuilder.cs:146-166 | the i-th sent envelope of a run carries the seed plus the number of builds before it, modulo 2^64 |
| `Session.RunIds` | PokemonGo.RocketAPI/Helpers/RequestBuilder.cs:146-166 | the same, for every envelope of the run at once |
| `Session.CounterAfterBuilds` | PokemonGo.RocketAPI/Helpers/RequestBuilder.cs:146-166 | N builds from seed s without wrap-around leave the counter at s + N |
| `Session.ConsecutiveIds` | PokemonGo.RocketAPI/Helpers/RequestBuilder.cs:146-166 | in such a run the i-th envelope carries id s + i |
| `Session.IdsIncrease` | PokemonGo.RocketAPI/Helpers/RequestBuilder.cs:146-166 | in such a run, a later envelope always has a strictly larger id |
| `Session.RunFinalHash` | PokemonGo.RocketAPI/Helpers/RequestBuilder.cs:32-39 | after a run, the store holds the last rotation's bytes, or the builder's initial hash when there was no rotation |
| `Session.RunHashAt` | PokemonGo.RocketAPI/Helpers/RequestBuilder.cs:127 | if the i-th call of a run is a normal build that is sent, its envelope carries an encrypted signature, and that signature holds the hash in force after the calls before it |
| `Session.RunSignatureHashes` | PokemonGo.RocketAPI/Helpers/RequestBuilder.cs:127 | every sent normal envelope of a run carries an encrypted signature holding the hash in force at its point: the last rotation's bytes, or else the builder's initial hash; the store ends with the last one |
| `Session.StableSessionHash` | PokemonGo.RocketAPI/Helpers/RequestBuilder.cs:127 | without a rotation, every sent normal envelope carries a signature holding the builder's session hash verbatim, and the store keeps it |
| `Session.RotationReachesLaterSignatures` | PokemonGo.RocketAPI/Helpers/RequestBuilder.cs:32-39 | after `GenerateNewHash` with bytes h, every later sent normal envelope carries a signature holding h, and none holding a different earlier hash, until the next rotation |
| `Session.BuildsSentAfterRotation` | PokemonGo.RocketAPI/Helpers/RequestBuilder.cs:32-39 | after a rotation, on a builder with a ticket, every later normal build is sent |
| `Session.RunKeepsAHash` | PokemonGo.RocketAPI/Helpers/RequestBuilder.cs:32-39 | a builder holding a session hash still holds one after any run |
| `Session.OutcomeAt` | PokemonGo.RocketAPI/Helpers/RequestBuilder.cs:54-65 | on a builder holding a session hash, the i-th call fails only with `NullAuthTicket` on a builder without a ticket, and with a ticket a normal build is sent |
| `Session.OnlyMissingTicketFails` | PokemonGo.RocketAPI/Helpers/RequestBuilder.cs:54-65 | a builder holding a session hash keeps one through every run. Any failure in the run is `NullAuthTicket` on a builder without a ticket. With a ticket, every normal build succeeds |
| `Session.SinceStartAt` | PokemonGo.RocketAPI/Helpers/RequestBuilder.cs:69 | if the i-th call of a run is a normal build that is sent, its signature exists and measures time since start from the builder's start time with that build's clock read |
| `Session.SinceStartFromStartTime` | PokemonGo.RocketAPI/Helpers/RequestBuilder.cs:69 | every sent normal envelope's signature exists and measures time since start from the builder's start time with that build's own clock read |
| `Session.SinceStartNonDecreasing` | PokemonGo.RocketAPI/Helpers/RequestBuilder.cs:69 | with non-decreasing clock reads within 2^31 ms of the start, the signatures of any two sent normal envelopes exist, time since start never decreases from the earlier to the later, and equals the clock read minus the start |

## Left out

- Protobuf serialisation (`ToByteArray`, `ToByteString`, `ByteString.CopyFrom`): uninterpreted functions in `Collaborators`. The typed overload takes the message already serialised.
- `Crypt.Encrypt`, `Utils.GenerateLocation1`, `Utils.GenerateLocation2` and `Utils.GenerateRequestHash`: uninterpreted functions. Their code, and `Utils` as a whole, is not part of this model. Each is taken to be deterministic in its arguments.
- `Utils.GetTime`: each reading is a parameter of type `int`. Clock monotonicity is assumed only in the lemmas that need it (`SinceStartNonDecreasing`), not in the operations.
- `System.Random`: each draw is a parameter, constrained to the range of the call that produces it. The process-wide shared `Random` and any concurrent use of the builder are not modelled.
- Floating point: the fifteen sensor samples (lines 76-90) are opaque reals passed through unchanged; their ranges are not modelled. The horizontal accuracy is an opaque real, bounded by [50, 250]. That bound is the `GenRandom(50, 250)` range, which `Math.Round` and the `(float)` cast keep. The `(float)` casts of the location fix are the uninterpreted `toFloat`. The conversion of `NextDouble() * 10^18` to the seed is not modelled: the seed is any `ulong` below 10^18.
- `Jitter.GenRandomAround`: uses an exact 0.3 spread. The source's `0.3f` is a single-precision literal, so its real bounds differ from 0.7 and 1.3 of the centre in about the eighth significant digit.
- `Jitter.GenRandom`: states the bound over exact reals, not the rounding of `double` arithmetic.
- `RequestBuilder.Elapsed`: models the 32-bit wrap of the subtraction and the `ulong` cast. It does not model an overflow of whatever `Utils.GetTime` computes internally.
- Null strings: the builder's auth token and the thirteen device fields are plain strings, never null. In the source, the protobuf string setters throw on null. So a handshake with a null `_authToken` (line 178) throws after line 166 has consumed the id. A signature built while a device field is null (lines 95-107) also throws. Neither exception path is modelled.
- The `ISettings` persistence mechanism: only a get/set session-hash field and read-only device fields are modelled. A null `settings` object, null sub-requests and a null request array are not modelled. The host's own writes to the store between builds are not modelled. A builder whose store holds no hash is handled, though: `GenerateSignature` reports it as `NullSessionHash`.
- The `crypt` field and its lazy creation (lines 59-60): encryption is the `encrypt` collaborator.
- `RequestEnvelope` fields the builder never sets (for example `Unknown6`) are not part of the message datatypes.

=== FILE: external.dfy ===
/**
 * What the request builder takes from outside: the persisted settings and
 * the collaborators whose code is not part of this model (protobuf
 * serialisation, the signature cipher, the location and request hashes).
 */
module External {
  import opened Wrappers
  import opened MachineInts
  import opened Protocol

  /**
   * The settings store: a persisted, read-write session hash (absent until
   * first generated) and the read-only device fingerprint.
   */
  datatype Settings = Settings(sessionHash: Option<Bytes>, device: DeviceInfo)

  /** Uninterpreted collaborators, each a total function of its inputs. */
  datatype Collaborators = Collaborators(
    /** protobuf `ToByteArray` of the ticket */
    serializeTicket: AuthTicket -> Bytes,
    /** protobuf `ToByteArray` of a sub-request */
    serializeRequest: Request -> Bytes,
    /** protobuf `ToByteArray` of the signature */
    serializeSignature: Signature -> Bytes,
    /** `Crypt.Encrypt` */
    encrypt: Bytes -> Bytes,
    /** `Utils.GenerateLocation1(ticketBytes, lat, lon, alt)` */
    locationHash1: (Bytes, real, real, real) -> UInt64,
    /** `Utils.GenerateLocation2(lat, lon, alt)` */
    locationHash2: (real, real, real) -> UInt64,
    /** `Utils.GenerateRequestHash(ticketBytes, requestBytes)` */
    requestHash: (Bytes, Bytes) -> UInt64,
    /** the `(float)` narrowing of a `double` */
    toFloat: real -> real)
}

=== FILE: jitter.dfy ===
/**
 * The two `GenRandom` jitter primitives, over exact reals. The uniform draw
 * `NextDouble()` is the parameter `u` in [0, 1).
 */
module Jitter {

  /** The spread of `GenRandom(num)`: thirty percent either side of the centre. */
  const RANDOM_FACTOR: real := 0.3

  /** `x` lies in the closed interval spanned by `a` and `b`, whichever is smaller. */
  predicate Between(x: real, a: real, b: real)
  {
    (a <= x <= b) || (b <= x <= a)
  }

  /** `GenRandom(min, max)`: a uniform sample between the two bounds. */
  function GenRandom(u: real, min: real, max: real): (r: real)
    requires 0.0 <= u < 1.0
    ensures Between(r, min, max)
    ensures min < max ==> min <= r < max
  {
    var width := max - min;
    ScaledBetween(u, width);
    assert min <= max ==> 0.0 <= u * width <= width;
    assert max <= min ==> width <= u * width <= 0.0;
    u * width + min
  }

  /** `GenRandom(num)`: a uniform sample within thirty percent of `num`. */
  function GenRandomAround(u: real, num: real): (r: real)
    requires 0.0 <= u < 1.0
    ensures Between(r, num * 0.7, num * 1.3)
    ensures num == 0.0 ==> r == 0.0
  {
    var randomMin := num * (1.0 - RANDOM_FACTOR);
    var randomMax := num * (1.0 + RANDOM_FACTOR);
    assert randomMin == num * 0.7 && randomMax == num * 1.3;
    assert randomMax - randomMin == num * 0.6;
    GenRandom(u, randomMin, randomMax)
  }

  /** Scaling a width by a fraction in [0, 1) stays between zero and the width. */
  lemma ScaledBetween(u: real, w: real)
    requires 0.0 <= u < 1.0
    ensures w >= 0.0 ==> 0.0 <= u * w <= w
    ensures w > 0.0 ==> u * w < w
    ensures w <= 0.0 ==> w <= u * w <= 0.0
  {
  }
}

=== FILE: machine_ints.dfy ===
/**
 * The fixed-width integers of the C# source. Dafny's integers are unbounded,
 * so every wrap-around the source performs in an unchecked context is written
 * out here.
 */
module MachineInts {

  const TWO_31: int := 0x8000_0000
  const TWO_32: int := 0x1_0000_0000
  const TWO_63: int := 0x8000_0000_0000_0000
  const TWO_64: int := 0x1_0000_0000_0000_0000

  /** C# `int`. */
  type Int32 = x: int | -TWO_31 <= x < TWO_31

  /** C# `long`. */
  type Int64 = x: int | -TWO_63 <= x < TWO_63

  /** C# `ulong`. */
  type UInt64 = x: int | 0 <= x < TWO_64

  /** Unchecked `int` arithmetic: the exact result reduced into range by two's complement. */
  function WrapInt32(x: int): (r: Int32)
    ensures (r - x) % TWO_32 == 0
    ensures -TWO_31 <= x < TWO_31 ==> r == x
  {
    (x + TWO_31) % TWO_32 - TWO_31
  }

  /**
   * The unchecked `(ulong)` cast of an `int`: sign extension, so a
   * non-negative value is kept and a negative one becomes a huge value.
   */
  function ToUInt64(x: Int32): (r: UInt64)
    ensures x >= 0 ==> r == x
    ensures x < 0 ==> r >= TWO_64 - TWO_31
    ensures (r - x) % TWO_64 == 0
  {
    x % TWO_64
  }

  /** The post-increment `n++` of a `ulong` in an unchecked context. */
  function IncrementUInt64(x: UInt64): (r: UInt64)
    ensures x < TWO_64 - 1 ==> r == x + 1
    ensures x == TWO_64 - 1 ==> r == 0
  {
    (x + 1) % TWO_64
  }

  /** The value of a `ulong` counter after `n` post-increments. */
  function Advanced(x: UInt64, n: nat): UInt64
  {
    if n == 0 then x else IncrementUInt64(Advanced(x, n - 1))
  }

  /** Advancing by k and then by n is advancing by k + n. */
  lemma {:induction false} AdvancedAdd(x: UInt64, k: nat, n: nat)
    ensures Advanced(Advanced(x, k), n) == Advanced(x, k + n)
  {
    if n > 0 {
      AdvancedAdd(x, k, n - 1);
    }
  }

  /** n post-increments add n modulo 2^64, and exactly n when the sum stays below 2^64. */
  lemma {:induction false} AdvancedIsSum(x: UInt64, n: nat)
    ensures Advanced(x, n) == (x + n) % TWO_64
    ensures x + n < TWO_64 ==> Advanced(x, n) == x + n
  {
    if n > 0 {
      AdvancedIsSum(x, n - 1);
      var q := (x + n - 1) / TWO_64;
      var m := (x + n - 1) % TWO_64;
      assert x + n - 1 == q * TWO_64 + m;
      if m + 1 < TWO_64 {
        assert x + n == q * TWO_64 + (m + 1);
      } else {
        assert x + n == (q + 1) * TWO_64;
      }
    }
  }
}

=== FILE: protocol.dfy ===
/**
 * The protocol messages the request builder reads and writes: the request
 * envelope, its sub-requests and platform requests, the credentials of the
 * handshake, and the signature carried encrypted inside a normal envelope.
 * Only the fields the builder sets are modelled.
 */
module Protocol {
  import opened Wrappers
  import opened MachineInts

  type Byte = x: int | 0 <= x < 256
  type Bytes = seq<Byte>

  /** The login provider the token was obtained from. */
  datatype AuthType = Google | Ptc

  /** Proof of login issued by the server; opaque to the builder. */
  datatype AuthTicket = AuthTicket(start: Bytes, expireTimestampMs: UInt64, end: Bytes)

  /** One typed sub-request with its already serialised message. */
  datatype Request = Request(requestType: int, requestMessage: Bytes)

  datatype Jwt = Jwt(contents: string, unknown2: int)

  /** Raw credentials, sent only in the handshake envelope. */
  datatype AuthInfo = AuthInfo(provider: string, token: Jwt)

  datatype PlatformRequestType = Unset | SendEncryptedSignature

  /** A side-channel payload of the envelope. */
  datatype PlatformRequest = PlatformRequest(requestType: PlatformRequestType, requestMessage: Bytes)

  /** The top-level outgoing message; an unset message field is `None`. */
  datatype RequestEnvelope = RequestEnvelope(
    statusCode: int,
    requestId: UInt64,
    requests: seq<Request>,
    latitude: real,
    longitude: real,
    accuracy: real,
    authInfo: Option<AuthInfo>,
    authTicket: Option<AuthTicket>,
    msSinceLastLocationfix: Int64,
    platformRequests: seq<PlatformRequest>)

  /** The spoofed hardware and firmware fingerprint. */
  datatype DeviceInfo = DeviceInfo(
    deviceId: string,
    androidBoardName: string,
    androidBootloader: string,
    deviceBrand: string,
    deviceModel: string,
    deviceModelIdentifier: string,
    deviceModelBoot: string,
    hardwareManufacturer: string,
    hardwareModel: string,
    firmwareBrand: string,
    firmwareTags: string,
    firmwareType: string,
    firmwareFingerprint: string)

  /** The fifteen synthetic sensor samples of a signature. */
  datatype SensorReadings = SensorReadings(
    linearAccelerationX: real, linearAccelerationY: real, linearAccelerationZ: real,
    magneticFieldX: real, magneticFieldY: real, magneticFieldZ: real,
    rotationVectorX: real, rotationVectorY: real, rotationVectorZ: real,
    gyroscopeRawX: real, gyroscopeRawY: real, gyroscopeRawZ: real,
    gravityX: real, gravityY: real, gravityZ: real)

  datatype SensorInfo = SensorInfo(
    timestampSnapshot: UInt64,
    readings: SensorReadings,
    accelerometerAxes: int)

  datatype LocationFix = LocationFix(
    provider: string,
    latitude: real,
    longitude: real,
    altitude: real,
    horizontalAccuracy: real,
    verticalAccuracy: int,
    timestampSnapshot: UInt64,
    providerStatus: int,
    locationType: int)

  /** The authenticity proof; serialised, encrypted and sent as a platform request. */
  datatype Signature = Signature(
    timestamp: UInt64,
    timestampSinceStart: UInt64,
    locationHash1: UInt64,
    locationHash2: UInt64,
    sensorInfo: SensorInfo,
    deviceInfo: DeviceInfo,
    locationFix: seq<LocationFix>,
    requestHash: seq<UInt64>,
    sessionHash: Bytes,
    unknown25: Int64)

  /** The handshake shape: raw credentials, no ticket and no platform request. */
  predicate IsHandshake(e: RequestEnvelope)
  {
    && e.authInfo.Some?
    && e.authTicket.None?
    && e.platformRequests == []
  }

  /** The normal shape: a ticket, no raw credentials and exactly one encrypted-signature platform request. */
  predicate IsSigned(e: RequestEnvelope)
  {
    && e.authTicket.Some?
    && e.authInfo.None?
    && |e.platformRequests| == 1
    && e.platformRequests[0].requestType == SendEncryptedSignature
  }
}

=== FILE: request_builder.dfy ===
/**
 * The request builder: per-connection state (request-id counter, process
 * start time, persisted session hash) and the construction of the handshake
 * envelope, the normal envelope and the signature it carries.
 *
 * The builder is a value; every operation that changes it returns the next
 * builder together with its output. Clock readings and random draws are
 * parameters, collected in `EnvelopeDraws`.
 */
module RequestBuilder {
  import opened Wrappers
  import opened MachineInts
  import opened Protocol
  import opened External

  /** `StatusCode` of every envelope. */
  const STATUS_CODE: int := 2
  /** The protocol quirk constant of client version 0.35. */
  const UNKNOWN25: Int64 := 7363665268261373700
  /** `Unknown2` of the handshake token. */
  const JWT_UNKNOWN2: int := 59
  /** Length in bytes of a generated session hash. */
  const SESSION_HASH_LENGTH: nat := 16
  /**
   * Request ids are seeded below this bound: `NextDouble()` is below 1, so
   * `NextDouble() * 10^18` converts to less than 10^18.
   */
  const REQUEST_ID_SEED_BOUND: nat := 1_000_000_000_000_000_000
  const LOCATION_PROVIDER: string := "fused"
  const PROVIDER_STATUS: int := 3
  const LOCATION_TYPE: int := 1
  const ACCELEROMETER_AXES: int := 3

  /** The builder's fields; `settings` is the persisted store it reads and writes through. */
  datatype Builder = Builder(
    authToken: string,
    authType: AuthType,
    latitude: real,
    longitude: real,
    altitude: real,
    authTicket: Option<AuthTicket>,
    startTime: Int32,
    nextRequestId: UInt64,
    settings: Settings)

  /** The builder after an operation, and what the operation returned. */
  datatype Transition<T> = Transition(next: Builder, output: T)

  /**
   * The exceptions a normal build can throw: the ticket is dereferenced while
   * null, or a null session hash is assigned to the signature.
   */
  datatype BuildError = NullAuthTicket | NullSessionHash

  /** The clock readings and random draws one normal build consumes, in field order. */
  datatype EnvelopeDraws = EnvelopeDraws(
    msSinceLastLocationfix: int,
    timestampRead: Int32,
    sinceStartRead: Int32,
    sensorRead: Int32,
    sensorJitter: int,
    sensors: SensorReadings,
    horizontalAccuracy: real,
    verticalAccuracy: int,
    fixRead: Int32,
    fixJitter: int)

  /** `RandomDevice.Next(800, 1900)`, the delay since the last location fix. */
  predicate LocationfixDelayInRange(ms: int)
  {
    800 <= ms < 1900
  }

  /** Every draw lies in the range its random call produces. */
  predicate DrawsInRange(d: EnvelopeDraws)
  {
    && LocationfixDelayInRange(d.msSinceLastLocationfix)
    && 100 <= d.sensorJitter < 400
    && 50.0 <= d.horizontalAccuracy <= 250.0
    && 2 <= d.verticalAccuracy < 5
    && 100 <= d.fixJitter < 300
  }

  /** The `SessionHash` property read: the hash the store currently holds, if any. */
  function SessionHash(b: Builder): (h: Option<Bytes>)
    ensures h.Some? <==> b.settings.sessionHash.Some?
    ensures h.Some? ==> h.value == b.settings.sessionHash.value
  {
    b.settings.sessionHash
  }

  /** The `SessionHash` property write: the store takes the value, nothing else changes. */
  function SetSessionHash(b: Builder, h: Option<Bytes>): (b': Builder)
    ensures SessionHash(b') == h
    ensures b'.settings.device == b.settings.device
    ensures b' == b.(settings := b'.settings)
  {
    b.(settings := b.settings.(sessionHash := h))
  }

  /**
   * The property behaves as one stored field: writing back what was read
   * changes nothing, and a second write overrides the first.
   */
  lemma SessionHashLaws(b: Builder, h1: Option<Bytes>, h2: Option<Bytes>)
    ensures SetSessionHash(b, SessionHash(b)) == b
    ensures SetSessionHash(SetSessionHash(b, h1), h2) == SetSessionHash(b, h2)
  {
  }

  /** `GenerateNewHash`: store sixteen fresh random bytes as the session hash, changing nothing else. */
  function GenerateNewHash(b: Builder, hashBytes: Bytes): (b': Builder)
    requires |hashBytes| == SESSION_HASH_LENGTH
    ensures SessionHash(b') == Some(hashBytes)
    ensures b'.settings.device == b.settings.device
    ensures b' == b.(settings := b'.settings)
  {
    SetSessionHash(b, Some(hashBytes))
  }

  /**
   * The constructor: seed the request id, capture the start time and
   * generate a session hash only when the store holds none.
   */
  function New(
    authToken: string, authType: AuthType,
    latitude: real, longitude: real, altitude: real,
    settings: Settings, authTicket: Option<AuthTicket>,
    seed: UInt64, now: Int32, hashBytes: Bytes): (b: Builder)
    requires seed < REQUEST_ID_SEED_BOUND
    requires |hashBytes| == SESSION_HASH_LENGTH
    ensures b.nextRequestId == seed
    ensures b.startTime == now
    ensures settings.sessionHash.Some? ==> b.settings == settings
    ensures settings.sessionHash.None? ==> SessionHash(b) == Some(hashBytes)
    ensures SessionHash(b).Some?
    ensures b.settings.device == settings.device
    ensures b.authToken == authToken && b.authType == authType && b.authTicket == authTicket
    ensures b.latitude == latitude && b.longitude == longitude && b.altitude == altitude
  {
    var initial := Builder(authToken, authType, latitude, longitude, altitude, authTicket, now, seed, settings);
    if SessionHash(initial).None? then GenerateNewHash(initial, hashBytes) else initial
  }

  /**
   * `(ulong)(now - _startTime - jitter)`, subtracted in unchecked `int`
   * arithmetic and cast with sign extension.
   */
  function Elapsed(now: Int32, start: Int32, jitter: int): (r: UInt64)
    ensures 0 <= now - start - jitter < TWO_31 ==> r == now - start - jitter
    ensures r < TWO_31 || r >= TWO_64 - TWO_31
    ensures -TWO_31 <= now - start - jitter < 0 ==> r == TWO_64 + (now - start - jitter)
    ensures (r - (now - start - jitter)) % TWO_32 == 0
  {
    ToUInt64(WrapInt32(now - start - jitter))
  }

  /** The signature's request-hash list, one hash appended per sub-request in order. */
  function RequestHashes(c: Collaborators, ticketBytes: Bytes, requests: seq<Request>): (hashes: seq<UInt64>)
    ensures |hashes| == |requests|
    ensures forall i | 0 <= i < |requests| ::
      hashes[i] == c.requestHash(ticketBytes, c.serializeRequest(requests[i]))
  {
    if requests == [] then []
    else
      var last := requests[|requests| - 1];
      RequestHashes(c, ticketBytes, requests[..|requests| - 1])
        + [c.requestHash(ticketBytes, c.serializeRequest(last))]
  }

  /** The signature fields filled from the request, the ticket and the settings. */
  ghost predicate SignatureMatches(c: Collaborators, b: Builder, requests: seq<Request>, sig: Signature)
    requires b.authTicket.Some?
  {
    var ticketBytes := c.serializeTicket(b.authTicket.value);
    && sig.locationHash1 == c.locationHash1(ticketBytes, b.latitude, b.longitude, b.altitude)
    && sig.locationHash2 == c.locationHash2(b.latitude, b.longitude, b.altitude)
    && |sig.requestHash| == |requests|
    && (forall i | 0 <= i < |requests| ::
          sig.requestHash[i] == c.requestHash(ticketBytes, c.serializeRequest(requests[i])))
    && Some(sig.sessionHash) == SessionHash(b)
    && sig.deviceInfo == b.settings.device
  }

  /** The fixed and jittered telemetry fields of a signature. */
  ghost predicate TelemetryMatches(c: Collaborators, b: Builder, d: EnvelopeDraws, sig: Signature)
  {
    && sig.timestamp == ToUInt64(d.timestampRead)
    && sig.timestampSinceStart == Elapsed(d.sinceStartRead, b.startTime, 0)
    && sig.sensorInfo.timestampSnapshot == Elapsed(d.sensorRead, b.startTime, d.sensorJitter)
    && sig.sensorInfo.readings == d.sensors
    && sig.sensorInfo.accelerometerAxes == 3
    && |sig.locationFix| == 1
    && sig.locationFix[0].provider == "fused"
    && sig.locationFix[0].latitude == c.toFloat(b.latitude)
    && sig.locationFix[0].longitude == c.toFloat(b.longitude)
    && sig.locationFix[0].altitude == c.toFloat(b.altitude)
    && 50.0 <= sig.locationFix[0].horizontalAccuracy <= 250.0
    && 2 <= sig.locationFix[0].verticalAccuracy < 5
    && sig.locationFix[0].timestampSnapshot == Elapsed(d.fixRead, b.startTime, d.fixJitter)
    && sig.locationFix[0].providerStatus == 3
    && sig.locationFix[0].locationType == 1
    && sig.unknown25 == 7363665268261373700
  }

  /**
   * `GenerateSignature`: fails when the ticket is null (it is serialised
   * first) or when the store holds no session hash; otherwise the signature
   * hashes each sub-request in order and carries the current session hash.
   */
  function GenerateSignature(c: Collaborators, b: Builder, requests: seq<Request>, d: EnvelopeDraws)
    : (r: Result<Signature, BuildError>)
    requires DrawsInRange(d)
    ensures b.authTicket.None? ==> r == Failure(NullAuthTicket)
    ensures b.authTicket.Some? && SessionHash(b).None? ==> r == Failure(NullSessionHash)
    ensures r.Success? <==> b.authTicket.Some? && SessionHash(b).Some?
    ensures r.Success? ==> SignatureMatches(c, b, requests, r.value)
    ensures r.Success? ==> TelemetryMatches(c, b, d, r.value)
  {
    if b.authTicket.None? then Failure(NullAuthTicket)
    else
      var ticketBytes := c.serializeTicket(b.authTicket.value);
      var sensorInfo := SensorInfo(
        Elapsed(d.sensorRead, b.startTime, d.sensorJitter), d.sensors, ACCELEROMETER_AXES);
      var fix := LocationFix(
        LOCATION_PROVIDER,
        c.toFloat(b.latitude), c.toFloat(b.longitude), c.toFloat(b.altitude),
        d.horizontalAccuracy, d.verticalAccuracy,
        Elapsed(d.fixRead, b.startTime, d.fixJitter),
        PROVIDER_STATUS, LOCATION_TYPE);
      if SessionHash(b).None? then Failure(NullSessionHash)
      else
        Success(Signature(
          ToUInt64(d.timestampRead),
          Elapsed(d.sinceStartRead, b.startTime, 0),
          c.locationHash1(ticketBytes, b.latitude, b.longitude, b.altitude),
          c.locationHash2(b.latitude, b.longitude, b.altitude),
          sensorInfo,
          b.settings.device,
          [fix],
          RequestHashes(c, ticketBytes, requests),
          SessionHash(b).value,
          UNKNOWN25))
  }

  /**
   * Once enough time has passed since the start for no subtraction to go
   * negative, the signature's time fields are the elapsed milliseconds: the
   * time since start exactly, the sensor snapshot 100 to 399 ms earlier and
   * the location-fix snapshot 100 to 299 ms earlier.
   */
  lemma SnapshotJitterBounds(c: Collaborators, b: Builder, requests: seq<Request>, d: EnvelopeDraws)
    requires DrawsInRange(d)
    requires b.authTicket.Some? && SessionHash(b).Some?
    requires 0 <= d.sinceStartRead - b.startTime < TWO_31
    requires 400 <= d.sensorRead - b.startTime < TWO_31
    requires 300 <= d.fixRead - b.startTime < TWO_31
    ensures var sig := GenerateSignature(c, b, requests, d).value;
      && sig.timestampSinceStart == d.sinceStartRead - b.startTime
      && d.sensorRead - b.startTime - 400 < sig.sensorInfo.timestampSnapshot <= d.sensorRead - b.startTime - 100
      && d.fixRead - b.startTime - 300 < sig.locationFix[0].timestampSnapshot <= d.fixRead - b.startTime - 100
  {
  }

  /**
   * Before that, the unsigned cast wraps: a build within 100 ms of the start
   * stamps the sensor snapshot with a value near 2^64 whatever the jitter.
   */
  lemma EarlySnapshotWraps(c: Collaborators, b: Builder, requests: seq<Request>, d: EnvelopeDraws)
    requires DrawsInRange(d)
    requires b.authTicket.Some? && SessionHash(b).Some?
    requires 0 <= d.sensorRead - b.startTime < 100
    ensures GenerateSignature(c, b, requests, d).value.sensorInfo.timestampSnapshot >= TWO_64 - 400
  {
  }

  /** The platform request carrying a signature: its serialised bytes, encrypted. */
  function EncryptedSignatureRequest(c: Collaborators, sig: Signature): (p: PlatformRequest)
    ensures p.requestType == SendEncryptedSignature
    ensures p.requestMessage == c.encrypt(c.serializeSignature(sig))
  {
    PlatformRequest(SendEncryptedSignature, c.encrypt(c.serializeSignature(sig)))
  }

  /** The builder after one envelope: the request id post-incremented, nothing else changed. */
  function Advance(b: Builder): (b': Builder)
    ensures b' == b.(nextRequestId := b'.nextRequestId)
    ensures b'.nextRequestId == Advanced(b.nextRequestId, 1)
    ensures b.nextRequestId < TWO_64 - 1 ==> b'.nextRequestId == b.nextRequestId + 1
    ensures b.nextRequestId == TWO_64 - 1 ==> b'.nextRequestId == 0
  {
    b.(nextRequestId := IncrementUInt64(b.nextRequestId))
  }

  /**
   * `GetRequestEnvelope(params Request[])`: consume the next request id,
   * then attach the ticket and the encrypted signature. The id is consumed
   * even when the signature throws.
   */
  function GetRequestEnvelope(c: Collaborators, b: Builder, requests: seq<Request>, d: EnvelopeDraws)
    : (t: Transition<Result<RequestEnvelope, BuildError>>)
    requires DrawsInRange(d)
    ensures t.next == b.(nextRequestId := t.next.nextRequestId)
    ensures b.nextRequestId < TWO_64 - 1 ==> t.next.nextRequestId == b.nextRequestId + 1
    ensures b.nextRequestId == TWO_64 - 1 ==> t.next.nextRequestId == 0
    ensures b.authTicket.None? ==> t.output == Failure(NullAuthTicket)
    ensures b.authTicket.Some? && SessionHash(b).None? ==> t.output == Failure(NullSessionHash)
    ensures t.output.Success? <==> b.authTicket.Some? && SessionHash(b).Some?
    ensures t.output.Success? ==>
      var e := t.output.value;
      && e.requestId == b.nextRequestId
      && IsSigned(e)
      && e.authTicket == b.authTicket
      && e.statusCode == 2
      && e.requests == requests
      && e.latitude == b.latitude && e.longitude == b.longitude
      && e.accuracy == b.altitude
      && 800 <= e.msSinceLastLocationfix < 1900
      && e.platformRequests == [EncryptedSignatureRequest(c, GenerateSignature(c, b, requests, d).value)]
  {
    var next := Advance(b);
    match GenerateSignature(c, next, requests, d)
    case Failure(err) => Transition(next, Failure(err))
    case Success(sig) =>
      Transition(next, Success(RequestEnvelope(
        STATUS_CODE,
        b.nextRequestId,
        requests,
        b.latitude, b.longitude, b.altitude,
        None,
        b.authTicket,
        d.msSinceLastLocationfix,
        [EncryptedSignatureRequest(c, sig)])))
  }

  /**
   * `GetRequestEnvelope(RequestType, IMessage)`: a normal envelope holding
   * one sub-request built from the type and the serialised message.
   */
  function GetTypedRequestEnvelope(
    c: Collaborators, b: Builder, requestType: int, message: Bytes, d: EnvelopeDraws)
    : (t: Transition<Result<RequestEnvelope, BuildError>>)
    requires DrawsInRange(d)
    ensures t.next == Advance(b)
    ensures b.authTicket.None? ==> t.output == Failure(NullAuthTicket)
    ensures b.authTicket.Some? && SessionHash(b).None? ==> t.output == Failure(NullSessionHash)
    ensures t.output.Success? <==> b.authTicket.Some? && SessionHash(b).Some?
    ensures t.output.Success? ==>
      && t.output.value.authTicket == b.authTicket
      && t.output.value.statusCode == 2
      && t.output.value.latitude == b.latitude && t.output.value.longitude == b.longitude
      && t.output.value.accuracy == b.altitude
      && 800 <= t.output.value.msSinceLastLocationfix < 1900
    ensures t.output.Success? ==>
      && t.output.value.requests == [Request(requestType, message)]
      && t.output.value.requestId == b.nextRequestId
      && IsSigned(t.output.value)
    ensures t.output.Success? ==>
      var sig := GenerateSignature(c, b, [Request(requestType, message)], d).value;
      && sig.requestHash == [c.requestHash(c.serializeTicket(b.authTicket.value), c.serializeRequest(Request(requestType, message)))]
      && t.output.value.platformRequests == [EncryptedSignatureRequest(c, sig)]
  {
    GetRequestEnvelope(c, b, [Request(requestType, message)], d)
  }

  /**
   * `GetInitialRequestEnvelope`: consume the next request id and send the
   * raw credentials instead of a ticket, with no platform request.
   */
  function GetInitialRequestEnvelope(b: Builder, requests: seq<Request>, msSinceLastLocationfix: int)
    : (t: Transition<RequestEnvelope>)
    requires LocationfixDelayInRange(msSinceLastLocationfix)
    ensures t.next == b.(nextRequestId := t.next.nextRequestId)
    ensures b.nextRequestId < TWO_64 - 1 ==> t.next.nextRequestId == b.nextRequestId + 1
    ensures b.nextRequestId == TWO_64 - 1 ==> t.next.nextRequestId == 0
    ensures t.output.requestId == b.nextRequestId
    ensures IsHandshake(t.output)
    ensures t.output.authInfo.value.provider == "google" <==> b.authType.Google?
    ensures t.output.authInfo.value.provider == "ptc" <==> b.authType.Ptc?
    ensures t.output.authInfo.value.token.contents == b.authToken
    ensures t.output.authInfo.value.token.unknown2 == 59
    ensures t.output.statusCode == 2 && t.output.requests == requests
    ensures t.output.latitude == b.latitude && t.output.longitude == b.longitude
    ensures t.output.accuracy == b.altitude
    ensures 800 <= t.output.msSinceLastLocationfix < 1900
  {
    assert "google" != "ptc" by { assert |"google"| != |"ptc"|; }
    var provider := if b.authType.Google? then "google" else "ptc";
    var authInfo := AuthInfo(provider, Jwt(b.authToken, JWT_UNKNOWN2));
    Transition(Advance(b), RequestEnvelope(
      STATUS_CODE,
      b.nextRequestId,
      requests,
      b.latitude, b.longitude, b.altitude,
      Some(authInfo),
      None,
      msSinceLastLocationfix,
      []))
  }
}

=== FILE: session.dfy ===
/**
 * Sequences of calls on one builder: envelope builds interleaved with
 * session-hash rotations, and what holds across them.
 */
module Session {
  import opened Wrappers
  import opened MachineInts
  import opened Protocol
  import opened External
  import opened RequestBuilder

  /** One call a client makes on the builder. */
  datatype Call =
    | Send(requests: seq<Request>, draws: EnvelopeDraws)
    | Handshake(requests: seq<Request>, msSinceLastLocationfix: int)
    | RotateHash(hashBytes: Bytes)

  /**
   * What a call returned. A sent normal envelope is paired with the
   * signature its encrypted payload was made from.
   */
  datatype Response =
    | Sent(envelope: RequestEnvelope, signature: Option<Signature>)
    | Failed(error: BuildError)
    | HashRotated

  /** The call's random draws lie in their ranges. */
  predicate CallAllowed(call: Call)
  {
    match call
    case Send(_, d) => DrawsInRange(d)
    case Handshake(_, ms) => LocationfixDelayInRange(ms)
    case RotateHash(h) => |h| == SESSION_HASH_LENGTH
  }

  predicate AllAllowed(calls: seq<Call>)
  {
    forall i | 0 <= i < |calls| :: CallAllowed(calls[i])
  }

  /** The call builds an envelope and so consumes a request id. */
  predicate IsBuild(call: Call)
  {
    !call.RotateHash?
  }

  /** The number of request ids the calls consume. */
  function BuildCount(calls: seq<Call>): nat
  {
    if calls == [] then 0
    else BuildCount(calls[..|calls| - 1]) + (if IsBuild(calls[|calls| - 1]) then 1 else 0)
  }

  /** The session hash in force after the calls: the last rotation's bytes, or the initial hash. */
  function CurrentHash(initial: Option<Bytes>, calls: seq<Call>): Option<Bytes>
  {
    if calls == [] then initial
    else if calls[|calls| - 1].RotateHash? then Some(calls[|calls| - 1].hashBytes)
    else CurrentHash(initial, calls[..|calls| - 1])
  }

  /** Perform one call. */
  function Step(c: Collaborators, b: Builder, call: Call): (t: Transition<Response>)
    requires CallAllowed(call)
    ensures t.next.nextRequestId == if IsBuild(call) then IncrementUInt64(b.nextRequestId) else b.nextRequestId
    ensures SessionHash(t.next) == if call.RotateHash? then Some(call.hashBytes) else SessionHash(b)
    ensures t.next == b.(nextRequestId := t.next.nextRequestId, settings := t.next.settings)
    ensures t.next.settings.device == b.settings.device
    ensures t.output.Sent? ==> t.output.envelope.requestId == b.nextRequestId
    ensures t.output.Sent? && t.output.signature.Some? ==>
      && call.Send?
      && GenerateSignature(c, b, call.requests, call.draws) == Success(t.output.signature.value)
    ensures t.output.Failed? ==>
      call.Send? && (t.output.error == NullAuthTicket <==> b.authTicket.None?)
    ensures call.Send? && t.output.Sent? ==>
      && t.output.signature.Some?
      && t.output.envelope.platformRequests == [EncryptedSignatureRequest(c, t.output.signature.value)]
    ensures call.Handshake? ==> t.output.Sent? && t.output.signature.None?
    ensures call.Send? && t.output.Sent? ==>
      Success(t.output.envelope) == GetRequestEnvelope(c, b, call.requests, call.draws).output
    ensures call.Handshake? ==>
      t.output.envelope == GetInitialRequestEnvelope(b, call.requests, call.msSinceLastLocationfix).output
    ensures call.RotateHash? ==> t.output == HashRotated
  {
    match call
    case Send(requests, d) =>
      var built := GetRequestEnvelope(c, b, requests, d);
      if built.output.Failure? then Transition(built.next, Failed(built.output.error))
      else Transition(built.next, Sent(built.output.value, Some(GenerateSignature(c, b, requests, d).value)))
    case Handshake(requests, ms) =>
      var built := GetInitialRequestEnvelope(b, requests, ms);
      Transition(built.next, Sent(built.output, None))
    case RotateHash(h) =>
      Transition(GenerateNewHash(b, h), HashRotated)
  }

  /** Perform the calls in order, returning one response per call. */
  function Run(c: Collaborators, b: Builder, calls: seq<Call>): (t: Transition<seq<Response>>)
    requires AllAllowed(calls)
    ensures |t.output| == |calls|
    decreases |calls|
  {
    if calls == [] then Transition(b, [])
    else
      var first := Step(c, b, calls[0]);
      var rest := Run(c, first.next, calls[1..]);
      Transition(rest.next, [first.output] + rest.output)
  }

  lemma {:induction false} BuildCountPrepend(call: Call, calls: seq<Call>)
    ensures BuildCount([call] + calls) == (if IsBuild(call) then 1 else 0) + BuildCount(calls)
    decreases |calls|
  {
    if calls == [] {
      assert ([call] + calls)[..0] == [];
    } else {
      var all := [call] + calls;
      assert all[..|all| - 1] == [call] + calls[..|calls| - 1];
      BuildCountPrepend(call, calls[..|calls| - 1]);
    }
  }

  lemma {:induction false} CurrentHashPrepend(initial: Option<Bytes>, call: Call, calls: seq<Call>)
    requires CallAllowed(call)
    ensures CurrentHash(initial, [call] + calls)
         == CurrentHash(if call.RotateHash? then Some(call.hashBytes) else initial, calls)
    decreases |calls|
  {
    if calls == [] {
      assert ([call] + calls)[..0] == [];
    } else {
      var all := [call] + calls;
      assert all[..|all| - 1] == [call] + calls[..|calls| - 1];
      CurrentHashPrepend(initial, call, calls[..|calls| - 1]);
    }
  }

  /** One call advances the counter once if it builds an envelope, and not at all otherwise. */
  lemma StepCounter(c: Collaborators, b: Builder, call: Call)
    requires CallAllowed(call)
    ensures Step(c, b, call).next.nextRequestId == Advanced(b.nextRequestId, if IsBuild(call) then 1 else 0)
  {
  }

  /** A run from its second call on, for the inductive step. */
  lemma RunUnfold(c: Collaborators, b: Builder, calls: seq<Call>)
    requires AllAllowed(calls)
    requires calls != []
    ensures AllAllowed(calls[1..])
    ensures var first := Step(c, b, calls[0]);
      Run(c, b, calls) == Transition(Run(c, first.next, calls[1..]).next, [first.output] + Run(c, first.next, calls[1..]).output)
  {
  }

  /** Across any run, only the counter and the session hash change; the device fields are kept. */
  lemma {:induction false} RunFrame(c: Collaborators, b: Builder, calls: seq<Call>)
    requires AllAllowed(calls)
    ensures var next := Run(c, b, calls).next;
      && next == b.(nextRequestId := next.nextRequestId, settings := next.settings)
      && next.settings.device == b.settings.device
    decreases |calls|
  {
    if calls != [] {
      RunUnfold(c, b, calls);
      RunFrame(c, Step(c, b, calls[0]).next, calls[1..]);
    }
  }

  /** Across any run, the counter is advanced once per build. */
  lemma {:induction false} RunAdvances(c: Collaborators, b: Builder, calls: seq<Call>)
    requires AllAllowed(calls)
    ensures Run(c, b, calls).next.nextRequestId == Advanced(b.nextRequestId, BuildCount(calls))
    decreases |calls|
  {
    if calls != [] {
      RunUnfold(c, b, calls);
      var rest := calls[1..];
      var first := Step(c, b, calls[0]);
      var k := if IsBuild(calls[0]) then 1 else 0;
      assert Run(c, b, calls).next.nextRequestId == Run(c, first.next, rest).next.nextRequestId;
      RunAdvances(c, first.next, rest);
      StepCounter(c, b, calls[0]);
      BuildCountTail(calls);
      AdvancedAdd(b.nextRequestId, k, BuildCount(rest));
    }
  }

  /** Across any run, the counter advances once per build, modulo 2^64; failed builds and handshakes count too. */
  lemma RunCounter(c: Collaborators, b: Builder, calls: seq<Call>)
    requires AllAllowed(calls)
    ensures Run(c, b, calls).next.nextRequestId == (b.nextRequestId + BuildCount(calls)) % TWO_64
  {
    RunAdvances(c, b, calls);
    AdvancedIsSum(b.nextRequestId, BuildCount(calls));
  }

  /** The builds among the calls: the first call's, then those among the rest. */
  lemma BuildCountTail(calls: seq<Call>)
    requires calls != []
    ensures BuildCount(calls) == (if IsBuild(calls[0]) then 1 else 0) + BuildCount(calls[1..])
  {
    assert calls == [calls[0]] + calls[1..];
    BuildCountPrepend(calls[0], calls[1..]);
  }

  /** The builds among the first i calls: the first call's, then those among the rest. */
  lemma PrefixBuildCount(calls: seq<Call>, i: nat)
    requires 0 < i <= |calls|
    ensures BuildCount(calls[..i]) == (if IsBuild(calls[0]) then 1 else 0) + BuildCount(calls[1..][..i - 1])
  {
    assert calls[..i] == [calls[0]] + calls[1..][..i - 1];
    BuildCountPrepend(calls[0], calls[1..][..i - 1]);
  }

  /** The i-th response of a run, if an envelope, carries the counter value reached after the builds before it. */
  lemma {:induction false} RunIdAt(c: Collaborators, b: Builder, calls: seq<Call>, i: nat)
    requires AllAllowed(calls)
    requires i < |calls|
    ensures Run(c, b, calls).output[i].Sent? ==>
      Run(c, b, calls).output[i].envelope.requestId == Advanced(b.nextRequestId, BuildCount(calls[..i]))
    decreases i
  {
    RunUnfold(c, b, calls);
    if i == 0 {
      assert calls[..0] == [];
    } else {
      var first := Step(c, b, calls[0]);
      var later := Run(c, first.next, calls[1..]).output;
      assert Run(c, b, calls).output[i] == later[i - 1];
      RunIdAt(c, first.next, calls[1..], i - 1);
      StepCounter(c, b, calls[0]);
      PrefixBuildCount(calls, i);
      AdvancedAdd(b.nextRequestId, if IsBuild(calls[0]) then 1 else 0, BuildCount(calls[1..][..i - 1]));
    }
  }

  /** Each envelope sent during a run carries the counter value reached after the builds before it. */
  lemma RunIds(c: Collaborators, b: Builder, calls: seq<Call>)
    requires AllAllowed(calls)
    ensures var out := Run(c, b, calls).output;
      forall i | 0 <= i < |calls| && out[i].Sent? ::
        out[i].envelope.requestId == (b.nextRequestId + BuildCount(calls[..i])) % TWO_64
  {
    var out := Run(c, b, calls).output;
    forall i | 0 <= i < |calls| && out[i].Sent?
      ensures out[i].envelope.requestId == (b.nextRequestId + BuildCount(calls[..i])) % TWO_64
    {
      RunIdAt(c, b, calls, i);
      AdvancedIsSum(b.nextRequestId, BuildCount(calls[..i]));
    }
  }

  /** A run of N builds from counter value s, with no wrap-around, leaves the counter at s + N. */
  lemma CounterAfterBuilds(c: Collaborators, b: Builder, calls: seq<Call>)
    requires AllAllowed(calls)
    requires forall i | 0 <= i < |calls| :: IsBuild(calls[i])
    requires b.nextRequestId + |calls| < TWO_64
    ensures Run(c, b, calls).next.nextRequestId == b.nextRequestId + |calls|
  {
    RunAdvances(c, b, calls);
    AllBuildsCount(calls);
    AdvancedIsSum(b.nextRequestId, |calls|);
  }

  /**
   * Such a run hands out the ids s, s + 1, ..., s + N - 1 in order: the i-th
   * envelope carries s + i.
   */
  lemma ConsecutiveIds(c: Collaborators, b: Builder, calls: seq<Call>)
    requires AllAllowed(calls)
    requires forall i | 0 <= i < |calls| :: IsBuild(calls[i])
    requires b.nextRequestId + |calls| < TWO_64
    ensures forall i | 0 <= i < |calls| && Run(c, b, calls).output[i].Sent? ::
      Run(c, b, calls).output[i].envelope.requestId == b.nextRequestId + i
  {
    var out := Run(c, b, calls).output;
    forall i | 0 <= i < |calls| && out[i].Sent?
      ensures out[i].envelope.requestId == b.nextRequestId + i
    {
      RunIdAt(c, b, calls, i);
      AllBuildsCount(calls[..i]);
      AdvancedIsSum(b.nextRequestId, i);
    }
  }

  /** Within such a run, a later envelope always carries a larger request id. */
  lemma IdsIncrease(c: Collaborators, b: Builder, calls: seq<Call>)
    requires AllAllowed(calls)
    requires forall i | 0 <= i < |calls| :: IsBuild(calls[i])
    requires b.nextRequestId + |calls| < TWO_64
    ensures var out := Run(c, b, calls).output;
      forall i, j | 0 <= i < j < |calls| && out[i].Sent? && out[j].Sent? ::
        out[i].envelope.requestId < out[j].envelope.requestId
  {
    ConsecutiveIds(c, b, calls);
  }

  lemma {:induction false} AllBuildsCount(calls: seq<Call>)
    requires forall i | 0 <= i < |calls| :: IsBuild(calls[i])
    ensures BuildCount(calls) == |calls|
    decreases |calls|
  {
    if calls != [] {
      AllBuildsCount(calls[..|calls| - 1]);
    }
  }

  /** The hash in force after the first i calls: the first call's effect, then the rest's. */
  lemma PrefixCurrentHash(initial: Option<Bytes>, calls: seq<Call>, i: nat)
    requires 0 < i <= |calls|
    requires CallAllowed(calls[0])
    ensures CurrentHash(initial, calls[..i])
         == CurrentHash(if calls[0].RotateHash? then Some(calls[0].hashBytes) else initial, calls[1..][..i - 1])
  {
    assert calls[..i] == [calls[0]] + calls[1..][..i - 1];
    CurrentHashPrepend(initial, calls[0], calls[1..][..i - 1]);
  }

  /** After a run, the store holds the hash in force after all its calls. */
  lemma {:induction false} RunFinalHash(c: Collaborators, b: Builder, calls: seq<Call>)
    requires AllAllowed(calls)
    ensures SessionHash(Run(c, b, calls).next) == CurrentHash(SessionHash(b), calls)
    decreases |calls|
  {
    if calls != [] {
      RunUnfold(c, b, calls);
      var first := Step(c, b, calls[0]);
      assert SessionHash(Run(c, b, calls).next) == SessionHash(Run(c, first.next, calls[1..]).next);
      RunFinalHash(c, first.next, calls[1..]);
      PrefixCurrentHash(SessionHash(b), calls, |calls|);
      assert calls[..|calls|] == calls;
      assert calls[1..][..|calls| - 1] == calls[1..];
    }
  }

  /**
   * A normal envelope sent as the i-th call of a run carries an encrypted
   * signature, and that signature holds the hash in force after the calls
   * before it.
   */
  lemma {:induction false} RunHashAt(c: Collaborators, b: Builder, calls: seq<Call>, i: nat)
    requires AllAllowed(calls)
    requires i < |calls|
    ensures var out := Run(c, b, calls).output[i];
      calls[i].Send? && out.Sent? ==>
        && out.signature.Some?
        && out.envelope.platformRequests == [EncryptedSignatureRequest(c, out.signature.value)]
        && Some(out.signature.value.sessionHash) == CurrentHash(SessionHash(b), calls[..i])
    decreases i
  {
    RunUnfold(c, b, calls);
    var first := Step(c, b, calls[0]);
    if i == 0 {
      assert calls[..0] == [];
    } else {
      var later := Run(c, first.next, calls[1..]).output;
      assert Run(c, b, calls).output[i] == later[i - 1];
      assert calls[i] == calls[1..][i - 1];
      RunHashAt(c, first.next, calls[1..], i - 1);
      PrefixCurrentHash(SessionHash(b), calls, i);
    }
  }

  /**
   * Every normal envelope sent during a run carries an encrypted signature
   * holding the session hash in force at that point: the one the builder
   * started with, or the last rotation's.
   */
  lemma RunSignatureHashes(c: Collaborators, b: Builder, calls: seq<Call>)
    requires AllAllowed(calls)
    ensures SessionHash(Run(c, b, calls).next) == CurrentHash(SessionHash(b), calls)
    ensures var out := Run(c, b, calls).output;
      forall i | 0 <= i < |calls| && calls[i].Send? && out[i].Sent? ::
        && out[i].signature.Some?
        && out[i].envelope.platformRequests == [EncryptedSignatureRequest(c, out[i].signature.value)]
        && Some(out[i].signature.value.sessionHash) == CurrentHash(SessionHash(b), calls[..i])
  {
    RunFinalHash(c, b, calls);
    var out := Run(c, b, calls).output;
    forall i | 0 <= i < |calls| && calls[i].Send? && out[i].Sent?
      ensures && out[i].signature.Some?
              && out[i].envelope.platformRequests == [EncryptedSignatureRequest(c, out[i].signature.value)]
              && Some(out[i].signature.value.sessionHash) == CurrentHash(SessionHash(b), calls[..i])
    {
      RunHashAt(c, b, calls, i);
    }
  }

  lemma {:induction false} CurrentHashWithoutRotation(initial: Option<Bytes>, calls: seq<Call>)
    requires forall i | 0 <= i < |calls| :: !calls[i].RotateHash?
    ensures CurrentHash(initial, calls) == initial
    decreases |calls|
  {
    if calls != [] {
      CurrentHashWithoutRotation(initial, calls[..|calls| - 1]);
    }
  }

  /**
   * Without a rotation, every normal envelope of a run carries a signature
   * holding the builder's session hash verbatim, and the store still holds
   * it afterwards.
   */
  lemma StableSessionHash(c: Collaborators, b: Builder, calls: seq<Call>)
    requires AllAllowed(calls)
    requires forall i | 0 <= i < |calls| :: !calls[i].RotateHash?
    ensures SessionHash(Run(c, b, calls).next) == SessionHash(b)
    ensures forall i | 0 <= i < |calls| && calls[i].Send? && Run(c, b, calls).output[i].Sent? ::
      && Run(c, b, calls).output[i].signature.Some?
      && Some(Run(c, b, calls).output[i].signature.value.sessionHash) == SessionHash(b)
  {
    RunSignatureHashes(c, b, calls);
    CurrentHashWithoutRotation(SessionHash(b), calls);
    forall n | 0 <= n <= |calls| ensures CurrentHash(SessionHash(b), calls[..n]) == SessionHash(b) {
      CurrentHashWithoutRotation(SessionHash(b), calls[..n]);
    }
  }

  /**
   * After `GenerateNewHash` with bytes h, every later normal envelope carries
   * a signature holding h and none holding the previous hash, until the next
   * rotation.
   */
  lemma RotationReachesLaterSignatures(c: Collaborators, b: Builder, h: Bytes, calls: seq<Call>)
    requires |h| == SESSION_HASH_LENGTH
    requires AllAllowed(calls)
    requires forall i | 0 <= i < |calls| :: !calls[i].RotateHash?
    ensures AllAllowed([RotateHash(h)] + calls)
    ensures forall i | 1 <= i < |calls| + 1 ::
      var out := Run(c, b, [RotateHash(h)] + calls).output[i];
      calls[i - 1].Send? && out.Sent? ==>
        && out.signature.Some?
        && out.signature.value.sessionHash == h
        && (SessionHash(b).Some? && SessionHash(b).value != h ==> out.signature.value.sessionHash != SessionHash(b).value)
  {
    var all := [RotateHash(h)] + calls;
    assert AllAllowed(all) by {
      forall i | 0 <= i < |all| ensures CallAllowed(all[i]) {
        if i > 0 { assert all[i] == calls[i - 1]; }
      }
    }
    var b1 := GenerateNewHash(b, h);
    assert all[1..] == calls;
    assert Run(c, b, all).output == [HashRotated] + Run(c, b1, calls).output;
    StableSessionHash(c, b1, calls);
  }

  /**
   * A rotation leaves a hash in the store, so on a builder with a ticket
   * every normal build after it is sent and carries a signature.
   */
  lemma BuildsSentAfterRotation(c: Collaborators, b: Builder, h: Bytes, calls: seq<Call>)
    requires |h| == SESSION_HASH_LENGTH
    requires AllAllowed(calls)
    requires b.authTicket.Some?
    ensures AllAllowed([RotateHash(h)] + calls)
    ensures forall i | 1 <= i < |calls| + 1 && calls[i - 1].Send? ::
      Run(c, b, [RotateHash(h)] + calls).output[i].Sent?
  {
    var all := [RotateHash(h)] + calls;
    assert AllAllowed(all) by {
      forall i | 0 <= i < |all| ensures CallAllowed(all[i]) {
        if i > 0 { assert all[i] == calls[i - 1]; }
      }
    }
    var b1 := GenerateNewHash(b, h);
    assert all[1..] == calls;
    assert Run(c, b, all).output == [HashRotated] + Run(c, b1, calls).output;
    OnlyMissingTicketFails(c, b1, calls);
  }

  /** A builder holding a session hash still holds one after any run. */
  lemma {:induction false} RunKeepsAHash(c: Collaborators, b: Builder, calls: seq<Call>)
    requires AllAllowed(calls)
    requires SessionHash(b).Some?
    ensures SessionHash(Run(c, b, calls).next).Some?
    decreases |calls|
  {
    if calls != [] {
      RunUnfold(c, b, calls);
      var first := Step(c, b, calls[0]);
      assert SessionHash(Run(c, b, calls).next) == SessionHash(Run(c, first.next, calls[1..]).next);
      RunKeepsAHash(c, first.next, calls[1..]);
    }
  }

  /**
   * The i-th call of a run on a builder holding a session hash fails only
   * for a missing ticket, and with a ticket a normal build is sent.
   */
  lemma {:induction false} OutcomeAt(c: Collaborators, b: Builder, calls: seq<Call>, i: nat)
    requires AllAllowed(calls)
    requires SessionHash(b).Some?
    requires i < |calls|
    ensures Run(c, b, calls).output[i].Failed? ==>
      Run(c, b, calls).output[i].error == NullAuthTicket && b.authTicket.None?
    ensures b.authTicket.Some? && calls[i].Send? ==> Run(c, b, calls).output[i].Sent?
    decreases i
  {
    RunUnfold(c, b, calls);
    var first := Step(c, b, calls[0]);
    if i == 0 {
      if calls[0].Send? && b.authTicket.Some? {
        assert GetRequestEnvelope(c, b, calls[0].requests, calls[0].draws).output.Success?;
      }
    } else {
      var later := Run(c, first.next, calls[1..]).output;
      assert Run(c, b, calls).output[i] == later[i - 1];
      assert calls[i] == calls[1..][i - 1];
      OutcomeAt(c, first.next, calls[1..], i - 1);
    }
  }

  /**
   * A builder whose store holds a session hash (as every constructed builder
   * does) can fail only for a missing ticket; with a ticket, every normal
   * build succeeds.
   */
  lemma OnlyMissingTicketFails(c: Collaborators, b: Builder, calls: seq<Call>)
    requires AllAllowed(calls)
    requires SessionHash(b).Some?
    ensures SessionHash(Run(c, b, calls).next).Some?
    ensures forall i | 0 <= i < |calls| && Run(c, b, calls).output[i].Failed? ::
      Run(c, b, calls).output[i].error == NullAuthTicket && b.authTicket.None?
    ensures b.authTicket.Some? ==>
      forall i | 0 <= i < |calls| && calls[i].Send? :: Run(c, b, calls).output[i].Sent?
  {
    RunKeepsAHash(c, b, calls);
    forall i | 0 <= i < |calls|
      ensures Run(c, b, calls).output[i].Failed? ==>
        Run(c, b, calls).output[i].error == NullAuthTicket && b.authTicket.None?
      ensures b.authTicket.Some? && calls[i].Send? ==> Run(c, b, calls).output[i].Sent?
    {
      OutcomeAt(c, b, calls, i);
    }
  }

  /**
   * A normal envelope sent as the i-th call of a run carries a signature
   * whose time since start is measured from the builder's start time.
   */
  lemma {:induction false} SinceStartAt(c: Collaborators, b: Builder, calls: seq<Call>, i: nat)
    requires AllAllowed(calls)
    requires i < |calls|
    ensures var out := Run(c, b, calls).output[i];
      calls[i].Send? && out.Sent? ==>
        && out.signature.Some?
        && out.signature.value.timestampSinceStart == Elapsed(calls[i].draws.sinceStartRead, b.startTime, 0)
    decreases i
  {
    RunUnfold(c, b, calls);
    var first := Step(c, b, calls[0]);
    if i > 0 {
      var later := Run(c, first.next, calls[1..]).output;
      assert Run(c, b, calls).output[i] == later[i - 1];
      assert calls[i] == calls[1..][i - 1];
      SinceStartAt(c, first.next, calls[1..], i - 1);
    }
  }

  /**
   * Across a run, each sent normal envelope carries a signature whose time
   * since start is measured from the builder's start time with that build's
   * own clock reading.
   */
  lemma SinceStartFromStartTime(c: Collaborators, b: Builder, calls: seq<Call>)
    requires AllAllowed(calls)
    ensures forall i | 0 <= i < |calls| && calls[i].Send? && Run(c, b, calls).output[i].Sent? ::
      && Run(c, b, calls).output[i].signature.Some?
      && Run(c, b, calls).output[i].signature.value.timestampSinceStart
        == Elapsed(calls[i].draws.sinceStartRead, b.startTime, 0)
  {
    forall i | 0 <= i < |calls| && calls[i].Send? && Run(c, b, calls).output[i].Sent?
      ensures && Run(c, b, calls).output[i].signature.Some?
              && Run(c, b, calls).output[i].signature.value.timestampSinceStart
                == Elapsed(calls[i].draws.sinceStartRead, b.startTime, 0)
    {
      SinceStartAt(c, b, calls, i);
    }
  }

  /** The clock readings of the run's normal builds are non-decreasing and within 2^31 ms after the start. */
  predicate ClockReadsOrdered(start: Int32, calls: seq<Call>)
  {
    && (forall i | 0 <= i < |calls| && calls[i].Send? ::
          0 <= calls[i].draws.sinceStartRead - start < TWO_31)
    && (forall i, j | 0 <= i < j < |calls| && calls[i].Send? && calls[j].Send? ::
          calls[i].draws.sinceStartRead <= calls[j].draws.sinceStartRead)
  }

  /** Time since start never decreases from one sent normal envelope's signature to a later one's. */
  lemma SinceStartNonDecreasing(c: Collaborators, b: Builder, calls: seq<Call>)
    requires AllAllowed(calls)
    requires ClockReadsOrdered(b.startTime, calls)
    ensures forall i, j | 0 <= i < j < |calls| ::
      var out := Run(c, b, calls).output;
      calls[i].Send? && out[i].Sent? && calls[j].Send? && out[j].Sent? ==>
        && out[i].signature.Some? && out[j].signature.Some?
        && out[i].signature.value.timestampSinceStart <= out[j].signature.value.timestampSinceStart
        && out[j].signature.value.timestampSinceStart == calls[j].draws.sinceStartRead - b.startTime
  {
    SinceStartFromStartTime(c, b, calls);
  }
}

=== FILE: wrappers.dfy ===
/** Optional values and results with an error, for the source's nulls and exceptions. */
module Wrappers {

  /** A value that may be absent, standing for a C# reference that may be null. */
  datatype Option<+T> = None | Some(value: T)

  /** The outcome of an operation that can throw: a value, or the error it throws. */
  datatype Result<+T, +E> = Success(value: T) | Failure(error: E)
}
